=== FILE: README.md ===
# Shared-expense tracker: membership, ledger and weekly settlement

This project models the state logic of a shared-expense tracker whose interface lives in
one component, `src/components/splitwise-pro-simple.tsx`. Members of a group record
daily expenses. The weekly settlement turns those expenses into a square matrix of
pairwise transfers that would bring each member to the group average.

The component keeps a session snapshot of three parts: the list of groups, the signed-in
user, and a copy of the active group. Its event handlers replace that snapshot. The model
makes the snapshot an immutable `Model.State` and makes each handler a pure function from
the old state to a `Model.Reply`: the next state, plus the reason when the handler returned
early. An early return always leaves the state unchanged. The model passes in everything
the component takes from outside: generated ids (`crypto.randomUUID`), access codes
(`generateAccessCode`), timestamps (`new Date()`) and the parsed amount
(`Number.parseFloat`).

Modules:

- `Text` (`text.dfy`): ASCII upper-casing of access codes.
- `Model` (`model.dfy`): the datatypes and the first-match searches
  (`find`, `some`, `flatMap`). Also `ReplaceById`, which replaces a group by id the way
  `groups.map` does, and the well-formedness invariant `Wf`.
- `Membership` (`membership.dfy`): authentication (first-admin sign-up, sign-up by
  access code, log-in), group creation, log-out, and choosing a group on the selection
  screen.
- `Ledger` (`ledger.dfy`): adding and deleting daily expenses, and `CanDelete`, the
  owner-or-admin rule that the expense table uses to decide whether to show a delete
  button.
- `Settlement` (`settlement.dfy`): the `spent` buckets, the rounded matrix, and the
  statistics. Spend can be bucketed by member name (`ByName`, as the component does it)
  or by member id (`ById`, the corrected version; see Findings).
- `Session` (`session.dfy`): one `Action` type for every handler. It proves that
  well-formedness holds along every admissible run from the empty snapshot, and links
  ledger changes to the settlement.

`Wf` is the invariant the handlers keep:

- group ids are unique;
- every group has an admin member, unique e-mails and unique user ids;
- every expense belongs to a member of its group;
- the active group equals an entry of `groups`;
- the signed-in user is a member of the active group.

Keeping it needs three guarantees from the environment, collected in
`Session.Admissible`: generated user ids are fresh, generated group ids are fresh, and the
selection screen offers only the signed-in user's own groups (line 590).

Where the code's behaviour is surprising, the model follows the code:

- Delete has no authorisation check. The owner-or-admin rule exists only as the
  condition for showing the delete button (line 1222). `CanDelete` states that rule,
  and `DeleteIgnoresViewer` shows that the handler ignores it.
- Rounding is `Math.round(x * 10) / 10`, which is `Floor(10x + 1/2) / 10`. Ties round
  toward +infinity, not away from zero.
- `totalSpent` sums every expense. The `spent` buckets credit only expenses whose
  `userId` belongs to a member.
- Amounts are not checked to be positive. The handler only requires the amount text to
  be non-empty.
- A group that is active but has no members gets an empty matrix. Its statistics are
  still present, and its average is a division by zero. The model writes that average
  as `None`.
- Access codes are not checked for uniqueness. Sign-up joins the first group whose code
  matches.

## Model

| member | source | states |
|---|---|---|
| Text.Upper | src/components/splitwise-pro-simple.tsx:223 | upper-casing keeps the length and maps each character through ASCII upper-casing |
| Text.UpperIdempotent | src/components/splitwise-pro-simple.tsx:223 | upper-casing an already upper-cased code changes nothing |
| Text.UpperHasNoLower | src/components/splitwise-pro-simple.tsx:223 | an upper-cased code holds no lower-case letter and is empty exactly when the entered code is |
| Model.UserIndex | src/components/splitwise-pro-simple.tsx:354 | the member found by id is the first with that id; it is missing exactly when no member has the id |
| Model.FirstIndex | src/components/splitwise-pro-simple.tsx:223 | the index found is the first satisfying the test; it is missing exactly when no element satisfies it |
| Model.FirstIndexIsLeast | src/components/splitwise-pro-simple.tsx:256 | any least index satisfying the test is the one `find` returns |
| Model.GroupWithCode | src/components/splitwise-pro-simple.tsx:223 | the group found by access code is the first with exactly that code; it is missing exactly when no group has it |
| Model.GroupWithId | src/components/splitwise-pro-simple.tsx:592 | the group found by id is the first with that id; it is missing exactly when no group has it |
| Model.GroupWithMember | src/components/splitwise-pro-simple.tsx:261 | the group found for a user id is the first containing a member with that id |
| Model.AllUsers | src/components/splitwise-pro-simple.tsx:254-255 | the flattened user list holds exactly the members of all groups |
| Model.AllUsersAppend | src/components/splitwise-pro-simple.tsx:254-255 | flattening distributes over concatenation, so the members come group after group in list order |
| Model.AllUsersOne | src/components/splitwise-pro-simple.tsx:254-255 | a single group flattens to exactly its own member list |
| Model.ReplaceById | src/components/splitwise-pro-simple.tsx:249 | every group with the id is replaced, every other group is kept, the length is unchanged |
| Model.ReplaceSelf | src/components/splitwise-pro-simple.tsx:323 | with unique ids, writing the active group back over its own entry leaves `groups` unchanged |
| Membership.Auth | src/components/splitwise-pro-simple.tsx:197-270 | a missing name or e-mail is a silent no-op; any rejection leaves the state; a complete form runs sign-up in sign-up mode and log-in otherwise: the very first sign-up is always accepted as admin, log-in is accepted exactly when some user has these credentials and never changes the groups, and a successful sign-up signs in the freshly generated id; a newly signed-in user has the form's name and e-mail |
| Membership.SignUp | src/components/splitwise-pro-simple.tsx:200-251 | with no groups the newcomer becomes admin and groups and active group are untouched; a missing code or a code that no group has after upper-casing is rejected with no state change |
| Membership.SignUpJoinsFirstMatch | src/components/splitwise-pro-simple.tsx:223-251 | at the first group whose code matches, a taken e-mail is rejected; otherwise exactly one member is appended there, groups with other ids are untouched, and the active group is the updated entry |
| Membership.SignUpIgnoresCase | src/components/splitwise-pro-simple.tsx:223 | two entered codes that upper-case alike give the same sign-up outcome |
| Membership.LogIn | src/components/splitwise-pro-simple.tsx:252-266 | log-in is rejected exactly when no user of any group has this e-mail and name; otherwise the signed-in user is the first such user in group-after-group order, the active group is the first group holding that user's id, and groups are unchanged |
| Membership.LogInActivatesGroup | src/components/splitwise-pro-simple.tsx:258-262 | a successful log-in always activates an entry of `groups` that contains the user |
| Membership.CreateGroup | src/components/splitwise-pro-simple.tsx:273-289 | with no user or no name nothing happens; otherwise one group is appended with the given id, name, description, code and timestamp, the creator as admin and sole admin-role member, and no expenses, and it becomes active |
| Membership.Logout | src/components/splitwise-pro-simple.tsx:294-296 | log-out clears user and active group and keeps the groups |
| Membership.SelectGroup | src/components/splitwise-pro-simple.tsx:591-594 | choosing a known id activates the first group with that id and changes nothing else; an unknown id is a no-op |
| Membership.Offered | src/components/splitwise-pro-simple.tsx:590 | the selection screen lists exactly the groups that have the user as a member |
| Membership.OfferedAppend | src/components/splitwise-pro-simple.tsx:590 | the filter distributes over concatenation, so listed groups keep their original order |
| Membership.Selectable | src/components/splitwise-pro-simple.tsx:587-593 | the selection screen, shown only while no group is active, can pass an id exactly when a user is signed in and a group with that id has the user as a member |
| Membership.SignUpPreservesWf | src/components/splitwise-pro-simple.tsx:236-251 | joining with a fresh user id keeps the session well-formed |
| Membership.LogInPreservesWf | src/components/splitwise-pro-simple.tsx:254-262 | log-in keeps the session well-formed |
| Membership.AuthPreservesWf | src/components/splitwise-pro-simple.tsx:197-267 | authentication with a fresh user id keeps the session well-formed |
| Membership.CreateGroupPreservesWf | src/components/splitwise-pro-simple.tsx:276-289 | creating a group with a fresh id keeps the session well-formed |
| Membership.LogoutPreservesWf | src/components/splitwise-pro-simple.tsx:294-296 | log-out keeps the session well-formed |
| Membership.SelectGroupPreservesWf | src/components/splitwise-pro-simple.tsx:590-594 | choosing one of the user's own groups keeps the session well-formed |
| Ledger.WithoutId | src/components/splitwise-pro-simple.tsx:337 | the filtered list holds exactly the expenses without the id |
| Ledger.WithoutIdAppend | src/components/splitwise-pro-simple.tsx:337 | filtering distributes over concatenation, so the kept expenses stay in order |
| Ledger.WithoutAbsentId | src/components/splitwise-pro-simple.tsx:337 | filtering by an id no expense carries changes nothing |
| Ledger.AddExpense | src/components/splitwise-pro-simple.tsx:304-323 | an incomplete form or missing session is a no-op; a complete form with a signed-in user and an active group is always accepted: one expense by the signed-in user is appended to the active group, and every entry with its id in `groups` equals the new active group while the others are unchanged |
| Ledger.DeleteExpense | src/components/splitwise-pro-simple.tsx:332-341 | without an active group nothing happens; otherwise exactly the expenses without the id remain, in their original order and multiplicity, and every entry with the group's id in `groups` equals the new active group while the others are unchanged |
| Ledger.CanDelete | src/components/splitwise-pro-simple.tsx:1222 | an admin is offered deletion of every expense; a plain member exactly of the expenses carrying their own id |
| Ledger.DeleteIgnoresViewer | src/components/splitwise-pro-simple.tsx:332-341 | an expense that `CanDelete` (line 1222) forbids the viewer to delete is still removed by the handler |
| Ledger.AddThenDeleteRestores | src/components/splitwise-pro-simple.tsx:304-342 | in a well-formed session, adding an expense with a new id and deleting that id restores the whole state |
| Ledger.AddExpensePreservesWf | src/components/splitwise-pro-simple.tsx:304-323 | adding an expense keeps the session well-formed |
| Ledger.DeleteExpensePreservesWf | src/components/splitwise-pro-simple.tsx:332-341 | deleting expenses keeps the session well-formed |
| Ledger.ChangedEntryKeepsWf | src/components/splitwise-pro-simple.tsx:322-323 | writing a well-formed change of the active group to both copies keeps them in sync |
| Settlement.SettleWith | src/components/splitwise-pro-simple.tsx:345-381 | without an active group the result is empty with null stats; otherwise the matrix has one row of n entries per member, zero on the diagonal, and stats are present |
| Settlement.ComputeSpent | src/components/splitwise-pro-simple.tsx:352-358 | the zero-initialised loop over expenses yields one entry per member name holding the sum credited to that name |
| Settlement.Round | src/components/splitwise-pro-simple.tsx:365 | a rounded cell is a whole number of tenths and lies in (x - 0.05, x + 0.05] |
| Settlement.RoundPair | src/components/splitwise-pro-simple.tsx:365 | a rounded value and its rounded negation sum to exactly 0 or 0.1 |
| Settlement.NearlyAntisymmetric | src/components/splitwise-pro-simple.tsx:361-367 | unrounded cell (i,j) is the negation of (j,i); after rounding their sum lies in [0, 0.1] |
| Settlement.EqualSpendSettlesToZero | src/components/splitwise-pro-simple.tsx:361-367 | if every member's bucket is equal, every matrix entry is 0 |
| Settlement.RowSumCells | src/components/splitwise-pro-simple.tsx:362-366 | an unrounded row sums to the column buckets over n minus one share of the row's own bucket per column |
| Settlement.SumRoundedClose | src/components/splitwise-pro-simple.tsx:365 | rounding every entry moves a row's sum by at most 0.05 per entry |
| Settlement.BucketsPartition | src/components/splitwise-pro-simple.tsx:353-358 | over distinct labels, the buckets together count each covered expense exactly once |
| Settlement.SpentAccounting | src/components/splitwise-pro-simple.tsx:352-371 | `totalSpent` is the sum of all expenses and the average is that over n; `spent` summed over its keys counts only expenses with an owner, so it is at most `totalSpent` for non-negative amounts and equal to it when every expense has an owner |
| Settlement.RowSumMatchesShare | src/components/splitwise-pro-simple.tsx:361-371 | with distinct labels and owned expenses, row i sums to the average minus member i's spend before rounding, and within n/20 of it after |
| Settlement.WellFormedRowSum | src/components/splitwise-pro-simple.tsx:352-371 | with spend keyed by member id, every row of a well-formed group is within n/20 of the average minus that member's spend |
| Settlement.SharedNameCounterexample | src/components/splitwise-pro-simple.tsx:352-365 | with two members named alike, the name-keyed matrix makes a third member owe twice their share; the id-keyed one does not |
| Session.Apply | src/components/splitwise-pro-simple.tsx:197-342 | any rejected action leaves the state unchanged |
| Session.FirstGroupRun | src/components/splitwise-pro-simple.tsx:197-323 | from the empty snapshot, a first sign-up, a group creation and an expense form an admissible run reaching an active group with that admin as its member and that expense in its ledger |
| Session.ApplyPreservesWf | src/components/splitwise-pro-simple.tsx:197-342 | every admissible action keeps the session well-formed |
| Session.RunPreservesWf | src/components/splitwise-pro-simple.tsx:197-342 | every admissible run of actions keeps the session well-formed |
| Session.ReachedSettlementAccounts | src/components/splitwise-pro-simple.tsx:345-381 | in every state reached from the empty snapshot, `spent` sums to `totalSpent`, and each rounded id-keyed row sums to within n/20 of the average minus that member's spend |
| Session.AddExpenseCredits | src/components/splitwise-pro-simple.tsx:304-358 | adding an expense raises `totalSpent` by its amount and raises only the bucket of the first member with the signed-in user's id |
| Session.AddThenDeleteSettlement | src/components/splitwise-pro-simple.tsx:304-381 | adding then deleting a new expense leaves the matrix and statistics exactly as before |

## Left out

- Persistence in `localStorage` (lines 139-184, and the removals at 298-300) is not modelled. It is I/O. The in-memory state is what the model treats as authoritative.
- Theme toggling, the welcome screen (`isStarted`), dialog flags, and the form resets after each handler are not modelled. They are presentation state.
- `generateAccessCode` (`Math.random`), `crypto.randomUUID` and `new Date()` are not modelled; the model takes their values as parameters. Freshness of generated ids is assumed only where a lemma needs it (`Session.Admissible`).
- `Number.parseFloat` is not modelled: the handler's parsed amount is a parameter. A NaN amount cannot be written as a real, so the `|| 0` fallback for NaN at line 364 is not modelled either.
- Text.Upper: upper-cases ASCII letters only. `String.prototype.toUpperCase` also maps other scripts, and can change a string's length, for example for the German sharp s.
- Settlement.SettleWith: amounts are exact reals. The floating-point rounding of `/ n`, `* 10` and the running sums is not modelled.
- Settlement.SettleWith: `averagePerPerson` is `None` for a group with no members, where the code computes NaN or Infinity.
- Settlement.ComputeSpent: `spent` is a map. JavaScript object-key quirks (such as `__proto__`) and key order are not modelled.
- `submitFeedback` (384-400), the PDF export (403-517) and `isSunday` (520) are not modelled. They are a trivial append, a foreign library doing asynchronous I/O, and a wall-clock read.
- The presentation components (authentication screen, group selection, expense, history, settlement and member tabs) are not modelled. Only the delete-button condition (line 1222, as `Ledger.CanDelete`) and the group-selection filter (line 590, as `Membership.Selectable`) are kept.

## Findings

| source | as written | input that shows it | evidently intended | confidence | as-written member | corrected member |
|---|---|---|---|---|---|---|
| src/components/splitwise-pro-simple.tsx:352-365 | `spent` is keyed by `user.name`, and each cell reads `spent[name]` | members Ali (id 1), Ali (id 2) and Bob (id 3); Ali with id 1 spends 90. Bob's row is [30, 30, 0], so Bob owes 60, not the 30 that brings Bob to the average of 30. Ali with id 2 is credited 90 without spending anything | key `spent` by member id, so each member is credited only their own expenses | medium, not executed | Settlement.SharedNameCounterexample | Settlement.WellFormedRowSum |

=== FILE: ledger.dfy ===
/**
 * The expense ledger of the active group: appending a daily expense, deleting
 * expenses by id, and the owner-or-admin rule the interface uses to decide
 * whether to offer deletion at all.
 */
module Ledger {
  import opened Model

  /** The expense form as typed: the amount is still text at this point. */
  datatype ExpenseForm = ExpenseForm(amount: string, description: string, category: string, date: string)

  /** The list without the expenses carrying `id`, in the original order
      (`expenses.filter(e => e.id !== id)`). */
  function WithoutId(expenses: seq<Expense>, id: string): (r: seq<Expense>)
    ensures forall e :: e in r <==> e in expenses && e.id != id
    ensures |r| <= |expenses|
  {
    if expenses == [] then []
    else if expenses[0].id == id then WithoutId(expenses[1..], id)
    else [expenses[0]] + WithoutId(expenses[1..], id)
  }

  /** Filtering distributes over concatenation, which with the one-element cases
      pins down that the kept expenses stay in their original order. */
  lemma {:induction false} WithoutIdAppend(a: seq<Expense>, b: seq<Expense>, id: string)
    ensures WithoutId(a + b, id) == WithoutId(a, id) + WithoutId(b, id)
  {
    if a == [] {
      assert a + b == b;
    } else {
      assert (a + b)[1..] == a[1..] + b;
      WithoutIdAppend(a[1..], b, id);
    }
  }

  /** Filtering removes nothing when no expense carries the id. */
  lemma {:induction false} WithoutAbsentId(expenses: seq<Expense>, id: string)
    requires forall e :: e in expenses ==> e.id != id
    ensures WithoutId(expenses, id) == expenses
  {
    if expenses != [] {
      assert expenses[0] in expenses;
      assert forall e :: e in expenses[1..] ==> e in expenses;
      WithoutAbsentId(expenses[1..], id);
    }
  }

  /** The add-expense handler. It needs a signed-in user, an active group, some
      amount text and a description; `amount` is the number parsed from the text.
      The new expense is attributed to the signed-in user and appended to a copy of
      the active group, which replaces the entry with the same id in `groups`. */
  function AddExpense(s: State, form: ExpenseForm, amount: real, newId: string, now: string): (r: Reply)
    ensures s.currentUser.None? || s.currentGroup.None? || form.amount == "" || form.description == "" ==>
      r == Reject(s, Incomplete)
    ensures r.rejected.Some? ==> r.state == s
    ensures s.currentUser.Some? && s.currentGroup.Some? && form.amount != "" && form.description != "" ==>
      var g := s.currentGroup.value;
      var e := Expense(newId, s.currentUser.value.id, amount, form.description, form.category, form.date, now);
      && r.rejected.None?
      && r.state.currentUser == s.currentUser
      && r.state.currentGroup == Some(g.(dailyExpenses := g.dailyExpenses + [e]))
      && |r.state.groups| == |s.groups|
      && (forall i :: 0 <= i < |s.groups| && s.groups[i].id != g.id ==> r.state.groups[i] == s.groups[i])
      && (forall i :: 0 <= i < |s.groups| && s.groups[i].id == g.id ==> Some(r.state.groups[i]) == r.state.currentGroup)
  {
    if s.currentUser.None? || s.currentGroup.None? || form.amount == "" || form.description == "" then
      Reject(s, Incomplete)
    else
      var g := s.currentGroup.value;
      var e := Expense(newId, s.currentUser.value.id, amount, form.description, form.category, form.date, now);
      var g' := g.(dailyExpenses := g.dailyExpenses + [e]);
      Accept(State(ReplaceById(s.groups, g.id, g'), s.currentUser, Some(g')))
  }

  /** The delete handler. It needs only an active group: it does not look at who is
      signed in. Every expense with the id goes, and the rest keep their order. */
  function DeleteExpense(s: State, id: string): (r: Reply)
    ensures s.currentGroup.None? ==> r == Reject(s, Incomplete)
    ensures s.currentGroup.Some? ==>
      var g := s.currentGroup.value;
      && r.rejected.None?
      && r.state.currentUser == s.currentUser
      && r.state.currentGroup.Some?
      && r.state.currentGroup.value == g.(dailyExpenses := r.state.currentGroup.value.dailyExpenses)
      && (forall e :: e in r.state.currentGroup.value.dailyExpenses <==> e in g.dailyExpenses && e.id != id)
      && r.state.currentGroup.value.dailyExpenses == WithoutId(g.dailyExpenses, id)
      && |r.state.groups| == |s.groups|
      && (forall i :: 0 <= i < |s.groups| && s.groups[i].id != g.id ==> r.state.groups[i] == s.groups[i])
      && (forall i :: 0 <= i < |s.groups| && s.groups[i].id == g.id ==> Some(r.state.groups[i]) == r.state.currentGroup)
  {
    if s.currentGroup.None? then Reject(s, Incomplete)
    else
      var g := s.currentGroup.value;
      var g' := g.(dailyExpenses := WithoutId(g.dailyExpenses, id));
      Accept(State(ReplaceById(s.groups, g.id, g'), s.currentUser, Some(g')))
  }

  /** The rule the expense table uses to show a delete button: the viewer owns the
      expense or has the admin role. The delete handler itself does not apply it. */
  function CanDelete(viewer: User, e: Expense): (r: bool)
    ensures viewer.role == Admin ==> r
    ensures viewer.role == Member ==> (r <==> e.userId == viewer.id)
  {
    e.userId == viewer.id || viewer.role == Admin
  }

  /** The delete handler's effect does not depend on who is signed in: an expense
      the viewer may not delete by `CanDelete` is still removed when its id is passed. */
  lemma DeleteIgnoresViewer(s: State, viewer: User, e: Expense)
    requires s.currentGroup.Some? && e in s.currentGroup.value.dailyExpenses
    requires !CanDelete(viewer, e)
    ensures var r := DeleteExpense(s.(currentUser := Some(viewer)), e.id);
      && r.rejected.None?
      && r.state.currentGroup.Some?
      && e !in r.state.currentGroup.value.dailyExpenses
      && r.state.groups == DeleteExpense(s, e.id).state.groups
  {
  }

  /** Adding an expense whose id is new to the active group, then deleting that id,
      gives back exactly the state before the add, provided the session was
      well-formed. */
  lemma AddThenDeleteRestores(s: State, form: ExpenseForm, amount: real, newId: string, now: string)
    requires Wf(s)
    requires AddExpense(s, form, amount, newId, now).rejected.None?
    requires forall e :: e in s.currentGroup.value.dailyExpenses ==> e.id != newId
    ensures DeleteExpense(AddExpense(s, form, amount, newId, now).state, newId).state == s
  {
    var g := s.currentGroup.value;
    var e := Expense(newId, s.currentUser.value.id, amount, form.description, form.category, form.date, now);
    var g' := g.(dailyExpenses := g.dailyExpenses + [e]);
    var added := AddExpense(s, form, amount, newId, now).state;
    assert added == State(ReplaceById(s.groups, g.id, g'), s.currentUser, Some(g'));
    WithoutIdAppend(g.dailyExpenses, [e], newId);
    WithoutAbsentId(g.dailyExpenses, newId);
    assert WithoutId([e], newId) == [];
    assert WithoutId(g'.dailyExpenses, newId) == g.dailyExpenses;
    assert g'.(dailyExpenses := g.dailyExpenses) == g;
    var back := ReplaceById(ReplaceById(s.groups, g.id, g'), g.id, g);
    assert back == ReplaceById(s.groups, g.id, g);
    ReplaceSelf(s.groups, g);
  }

  lemma AddExpensePreservesWf(s: State, form: ExpenseForm, amount: real, newId: string, now: string)
    requires Wf(s)
    ensures Wf(AddExpense(s, form, amount, newId, now).state)
  {
    var r := AddExpense(s, form, amount, newId, now);
    if r.rejected.None? {
      var g := s.currentGroup.value;
      var g' := r.state.currentGroup.value;
      assert g' == g.(dailyExpenses := g'.dailyExpenses);
      assert GroupWf(g);
      assert GroupWf(g') by {
        forall e | e in g'.dailyExpenses ensures HasMember(g'.users, e.userId) {
          if e !in g.dailyExpenses {
            assert e.userId == s.currentUser.value.id;
          }
        }
      }
      ChangedEntryKeepsWf(s, g');
    }
  }

  lemma DeleteExpensePreservesWf(s: State, id: string)
    requires Wf(s)
    ensures Wf(DeleteExpense(s, id).state)
  {
    var r := DeleteExpense(s, id);
    if r.rejected.None? {
      var g := s.currentGroup.value;
      var g' := r.state.currentGroup.value;
      assert GroupWf(g);
      assert GroupWf(g');
      ChangedEntryKeepsWf(s, g');
    }
  }

  /** Replacing the active group's entry by a well-formed group with the same id
      and the same members, and making it the active group, keeps the session
      well-formed. */
  lemma ChangedEntryKeepsWf(s: State, g': Group)
    requires Wf(s) && s.currentGroup.Some?
    requires g'.id == s.currentGroup.value.id && g'.users == s.currentGroup.value.users
    requires GroupWf(g')
    ensures Wf(State(ReplaceById(s.groups, g'.id, g'), s.currentUser, Some(g')))
  {
    var gs := ReplaceById(s.groups, g'.id, g');
    forall h | h in gs ensures GroupWf(h) {
      var i :| 0 <= i < |gs| && gs[i] == h;
      if s.groups[i].id != g'.id { assert s.groups[i] in s.groups; }
    }
    ReplaceLands(s.groups, s.currentGroup.value, g');
  }
}

=== FILE: membership.dfy ===
/**
 * Identity and membership: sign-up (first admin, or joining a group by access
 * code), log-in by name and e-mail, group creation, log-out and choosing the
 * active group. Fresh ids, access codes and timestamps are parameters.
 */
module Membership {
  import opened Model
  import opened Text

  datatype AuthMode = LogInMode | SignUpMode

  datatype AuthForm = AuthForm(name: string, email: string, accessCode: string)

  datatype GroupForm = GroupForm(name: string, description: string)

  /** The authentication form's submit handler: both name and e-mail are required,
      then the form's mode picks sign-up or log-in. */
  function Auth(s: State, mode: AuthMode, form: AuthForm, newId: string, now: string): (r: Reply)
    ensures form.name == "" || form.email == "" ==> r == Reject(s, Incomplete)
    ensures r.rejected.Some? ==> r.state == s
    ensures mode == LogInMode ==> r.state.groups == s.groups
    ensures mode == SignUpMode && r.rejected.None? ==>
      r.state.currentUser.Some? && r.state.currentUser.value.id == newId
    ensures form.name != "" && form.email != "" && mode == SignUpMode ==> r == SignUp(s, form, newId, now)
    ensures form.name != "" && form.email != "" && mode == LogInMode ==> r == LogIn(s, form)
    ensures form.name != "" && form.email != "" && mode == SignUpMode && |s.groups| == 0 ==>
      r.rejected.None? && r.state.currentUser == Some(User(newId, form.name, form.email, Admin, now))
    ensures form.name != "" && form.email != "" && mode == LogInMode ==>
      (r.rejected.None? <==> exists u :: u in AllUsers(s.groups) && Credentials(u, form))
    ensures r.state.currentUser.Some? && r.state.currentUser != s.currentUser ==>
      r.state.currentUser.value.name == form.name && r.state.currentUser.value.email == form.email
  {
    if form.name == "" || form.email == "" then Reject(s, Incomplete)
    else if mode == SignUpMode then SignUp(s, form, newId, now)
    else LogIn(s, form)
  }

  /** Sign-up. With no groups at all the newcomer becomes an admin without a code
      (and is expected to create the first group next). Otherwise the entered code,
      upper-cased, must equal some group's code, and the e-mail must be new to that
      group; the newcomer is then appended to it as a plain member. */
  function SignUp(s: State, form: AuthForm, newId: string, now: string): (r: Reply)
    ensures |s.groups| == 0 ==>
      && r.rejected.None?
      && r.state.groups == s.groups
      && r.state.currentGroup == s.currentGroup
      && r.state.currentUser == Some(User(newId, form.name, form.email, Admin, now))
    ensures |s.groups| > 0 && form.accessCode == "" ==> r == Reject(s, MissingAccessCode)
    ensures |s.groups| > 0 && form.accessCode != ""
            && (forall g :: g in s.groups ==> g.accessCode != Upper(form.accessCode))
            ==> r == Reject(s, InvalidAccessCode)
    ensures r.rejected.Some? ==> r.state == s
    ensures r.rejected.None? ==> r.state.currentUser.Some? && r.state.currentUser.value.id == newId
  {
    if |s.groups| == 0 then
      Accept(s.(currentUser := Some(User(newId, form.name, form.email, Admin, now))))
    else if form.accessCode == "" then
      Reject(s, MissingAccessCode)
    else match GroupWithCode(s.groups, Upper(form.accessCode))
      case None => Reject(s, InvalidAccessCode)
      case Some(k) =>
        var g := s.groups[k];
        if EmailTaken(g.users, form.email) then Reject(s, DuplicateEmail)
        else
          var u := User(newId, form.name, form.email, Member, now);
          var joined := g.(users := g.users + [u]);
          Accept(State(ReplaceById(s.groups, g.id, joined), Some(u), Some(joined)))
  }

  /** Joining by code acts on the FIRST group whose code matches: a duplicate
      e-mail there is refused, otherwise exactly one member is appended to that
      group, groups with other ids are untouched, and the active group is the
      updated entry. */
  lemma SignUpJoinsFirstMatch(s: State, form: AuthForm, newId: string, now: string, k: nat)
    requires |s.groups| > 0 && form.accessCode != ""
    requires k < |s.groups| && s.groups[k].accessCode == Upper(form.accessCode)
    requires forall j :: 0 <= j < k ==> s.groups[j].accessCode != Upper(form.accessCode)
    ensures EmailTaken(s.groups[k].users, form.email) ==>
      SignUp(s, form, newId, now) == Reject(s, DuplicateEmail)
    ensures !EmailTaken(s.groups[k].users, form.email) ==>
      var r := SignUp(s, form, newId, now);
      var u := User(newId, form.name, form.email, Member, now);
      && r.rejected.None?
      && r.state.currentUser == Some(u)
      && |r.state.groups| == |s.groups|
      && r.state.groups[k].users == s.groups[k].users + [u]
      && r.state.groups[k] == s.groups[k].(users := r.state.groups[k].users)
      && (forall j :: 0 <= j < |s.groups| && s.groups[j].id != s.groups[k].id ==>
            r.state.groups[j] == s.groups[j])
      && r.state.currentGroup == Some(r.state.groups[k])
  {
    var m := GroupWithCode(s.groups, Upper(form.accessCode));
    assert m == Some(k);
  }

  /** The code comparison ignores the case of the entered code. */
  lemma SignUpIgnoresCase(s: State, form: AuthForm, code: string, newId: string, now: string)
    requires Upper(code) == Upper(form.accessCode)
    ensures SignUp(s, form.(accessCode := code), newId, now) == SignUp(s, form, newId, now)
  {
    UpperHasNoLower(code);
    UpperHasNoLower(form.accessCode);
  }

  /** The user carries exactly the entered e-mail and name. */
  predicate Credentials(u: User, form: AuthForm) {
    u.email == form.email && u.name == form.name
  }

  /** Log-in finds the first user, across all groups, with exactly this e-mail and
      name, and activates the first group that contains a user with that id. */
  function LogIn(s: State, form: AuthForm): (r: Reply)
    ensures r.rejected.Some? <==>
      forall u :: u in AllUsers(s.groups) ==> !(u.email == form.email && u.name == form.name)
    ensures r.rejected.Some? ==> r == Reject(s, UserNotFound)
    ensures r.rejected.None? ==>
      && r.state.groups == s.groups
      && r.state.currentUser.Some?
      && r.state.currentUser.value in AllUsers(s.groups)
      && r.state.currentUser.value.email == form.email
      && r.state.currentUser.value.name == form.name
    ensures forall k :: 0 <= k < |AllUsers(s.groups)| && Credentials(AllUsers(s.groups)[k], form)
                        && (forall j :: 0 <= j < k ==> !Credentials(AllUsers(s.groups)[j], form)) ==>
              r.state.currentUser == Some(AllUsers(s.groups)[k])
    ensures r.rejected.None? ==>
      forall gi :: 0 <= gi < |s.groups| && HasMember(s.groups[gi].users, r.state.currentUser.value.id)
                   && (forall j :: 0 <= j < gi ==> !HasMember(s.groups[j].users, r.state.currentUser.value.id)) ==>
        r.state.currentGroup == Some(s.groups[gi])
  {
    var everyone := AllUsers(s.groups);
    var matches := (u: User) => Credentials(u, form);
    FirstIndexIsLeast(everyone, matches);
    match FirstIndex(everyone, matches)
    case None => Reject(s, UserNotFound)
    case Some(k) =>
      var u := everyone[k];
      var holds := (g: Group) => HasMember(g.users, u.id);
      FirstIndexIsLeast(s.groups, holds);
      match GroupWithMember(s.groups, u.id)
      case Some(gi) => Accept(s.(currentUser := Some(u), currentGroup := Some(s.groups[gi])))
      case None => Accept(s.(currentUser := Some(u)))
  }

  /** A successful log-in always activates a group, and that group is an entry of
      `groups` holding the signed-in user's id. */
  lemma LogInActivatesGroup(s: State, form: AuthForm)
    requires LogIn(s, form).rejected.None?
    ensures var r := LogIn(s, form).state;
      && r.currentGroup.Some?
      && r.currentGroup.value in s.groups
      && HasMember(r.currentGroup.value.users, r.currentUser.value.id)
  {
    var u := LogIn(s, form).state.currentUser.value;
    var g :| g in s.groups && u in g.users;
    var i :| 0 <= i < |s.groups| && s.groups[i] == g;
    assert HasMember(s.groups[i].users, u.id);
  }

  /** Group creation needs a signed-in user and a name. The new group is appended;
      its admin is the creator, who is its only member, with role admin; it has
      no expenses; it becomes the active group and the creator's role becomes admin. */
  function CreateGroup(s: State, form: GroupForm, newId: string, code: string, now: string): (r: Reply)
    ensures s.currentUser.None? || form.name == "" ==> r == Reject(s, Incomplete)
    ensures s.currentUser.Some? && form.name != "" ==>
      var creator := s.currentUser.value;
      && r.rejected.None?
      && |r.state.groups| == |s.groups| + 1
      && r.state.groups[..|s.groups|] == s.groups
      && var g := r.state.groups[|s.groups|];
      && g.id == newId && g.name == form.name && g.accessCode == code
      && g.description == form.description && g.createdAt == now
      && g.adminId == creator.id
      && |g.users| == 1 && g.users[0].id == creator.id && g.users[0].role == Admin
      && g.users[0] == creator.(role := Admin)
      && g.dailyExpenses == []
      && GroupWf(g)
      && r.state.currentGroup == Some(g)
      && r.state.currentUser == Some(creator.(role := Admin))
  {
    if s.currentUser.None? || form.name == "" then Reject(s, Incomplete)
    else
      var admin := s.currentUser.value.(role := Admin);
      var g := Group(newId, form.name, form.description, admin.id, code, [admin], [], now);
      assert admin in g.users;
      Accept(State(s.groups + [g], Some(admin), Some(g)))
  }

  /** Log-out clears the signed-in user and the active group and keeps all groups. */
  function Logout(s: State): (r: State)
    ensures r.groups == s.groups
    ensures r.currentUser.None? && r.currentGroup.None?
  {
    State(s.groups, None, None)
  }

  /** Choosing a group from the selection screen activates the first group with
      that id, and does nothing when there is none. */
  function SelectGroup(s: State, groupId: string): (r: State)
    ensures r.groups == s.groups && r.currentUser == s.currentUser
    ensures forall k :: 0 <= k < |s.groups| && s.groups[k].id == groupId
                        && (forall j :: 0 <= j < k ==> s.groups[j].id != groupId) ==>
              r.currentGroup == Some(s.groups[k])
    ensures r.currentGroup != s.currentGroup ==>
      r.currentGroup.Some? && r.currentGroup.value in s.groups && r.currentGroup.value.id == groupId
    ensures (forall g :: g in s.groups ==> g.id != groupId) ==> r == s
  {
    match GroupWithId(s.groups, groupId)
    case Some(k) => s.(currentGroup := Some(s.groups[k]))
    case None => s
  }

  /** The groups the selection screen lists: those with the given user as a
      member, in their original order (`groups.filter(...)`). */
  function Offered(groups: seq<Group>, userId: string): (r: seq<Group>)
    ensures forall g :: g in r <==> g in groups && HasMember(g.users, userId)
    ensures |r| <= |groups|
  {
    if groups == [] then []
    else if HasMember(groups[0].users, userId) then [groups[0]] + Offered(groups[1..], userId)
    else Offered(groups[1..], userId)
  }

  /** Filtering distributes over concatenation, which with the one-group cases
      pins down that the listed groups keep their original order. */
  lemma {:induction false} OfferedAppend(a: seq<Group>, b: seq<Group>, userId: string)
    ensures Offered(a + b, userId) == Offered(a, userId) + Offered(b, userId)
  {
    if a == [] {
      assert a + b == b;
    } else {
      assert (a + b)[1..] == a[1..] + b;
      OfferedAppend(a[1..], b, userId);
    }
  }

  /** An id the selection screen can pass: the screen is shown only while no group
      is active, and it passes the id of a listed group. */
  function Selectable(s: State, groupId: string): (r: bool)
    ensures r <==> (s.currentUser.Some? && s.currentGroup.None?
      && exists g :: g in s.groups && g.id == groupId && HasMember(g.users, s.currentUser.value.id))
  {
    && s.currentUser.Some?
    && s.currentGroup.None?
    && exists g :: g in Offered(s.groups, s.currentUser.value.id) && g.id == groupId
  }

  // ---------------------------------------------------------------------------
  // The handlers keep the session well-formed
  // ---------------------------------------------------------------------------

  lemma SignUpPreservesWf(s: State, form: AuthForm, newId: string, now: string)
    requires Wf(s) && !UserIdUsed(s.groups, newId)
    ensures Wf(SignUp(s, form, newId, now).state)
  {
    var r := SignUp(s, form, newId, now);
    if |s.groups| > 0 && form.accessCode != "" {
      var m := GroupWithCode(s.groups, Upper(form.accessCode));
      if m.Some? && !EmailTaken(s.groups[m.value].users, form.email) {
        var k := m.value;
        var g := s.groups[k];
        var u := User(newId, form.name, form.email, Member, now);
        var joined := g.(users := g.users + [u]);
        assert r.state == State(ReplaceById(s.groups, g.id, joined), Some(u), Some(joined));
        assert GroupWf(g);
        assert !HasMember(g.users, newId);
        assert GroupWf(joined) by {
          var a :| a in g.users && a.id == g.adminId && a.role == Admin;
          assert a in joined.users;
          forall i, j | 0 <= i < j < |joined.users|
            ensures joined.users[i].email != joined.users[j].email
            ensures joined.users[i].id != joined.users[j].id
          {
            if j == |g.users| {
              assert g.users[i] in g.users;
            }
          }
          forall e | e in joined.dailyExpenses
            ensures HasMember(joined.users, e.userId)
          {
            var w :| w in g.users && w.id == e.userId;
            assert w in joined.users;
          }
        }
        var gs' := ReplaceById(s.groups, g.id, joined);
        forall h | h in gs' ensures GroupWf(h) {
          var i :| 0 <= i < |gs'| && gs'[i] == h;
          if s.groups[i].id != g.id { assert s.groups[i] in s.groups; }
        }
        ReplaceLands(s.groups, g, joined);
        assert u in joined.users;
      }
    }
  }

  lemma LogInPreservesWf(s: State, form: AuthForm)
    requires Wf(s)
    ensures Wf(LogIn(s, form).state)
  {
    if LogIn(s, form).rejected.None? {
      LogInActivatesGroup(s, form);
    }
  }

  lemma AuthPreservesWf(s: State, mode: AuthMode, form: AuthForm, newId: string, now: string)
    requires Wf(s) && !UserIdUsed(s.groups, newId)
    ensures Wf(Auth(s, mode, form, newId, now).state)
  {
    if form.name != "" && form.email != "" {
      if mode == SignUpMode { SignUpPreservesWf(s, form, newId, now); }
      else { LogInPreservesWf(s, form); }
    }
  }

  lemma CreateGroupPreservesWf(s: State, form: GroupForm, newId: string, code: string, now: string)
    requires Wf(s) && !GroupIdUsed(s.groups, newId)
    ensures Wf(CreateGroup(s, form, newId, code, now).state)
  {
    var r := CreateGroup(s, form, newId, code, now);
    if r.rejected.None? {
      var gs := r.state.groups;
      assert gs[..|s.groups|] == s.groups;
      forall i, j | 0 <= i < j < |gs| ensures gs[i].id != gs[j].id {
        if j == |s.groups| { assert gs[i] in s.groups; }
      }
      forall h | h in gs ensures GroupWf(h) {
        var i :| 0 <= i < |gs| && gs[i] == h;
        if i < |s.groups| { assert gs[i] in s.groups; }
      }
      assert r.state.currentUser.value in r.state.currentGroup.value.users;
    }
  }

  lemma LogoutPreservesWf(s: State)
    requires Wf(s)
    ensures Wf(Logout(s))
  {
  }

  lemma SelectGroupPreservesWf(s: State, groupId: string)
    requires Wf(s) && Selectable(s, groupId)
    ensures Wf(SelectGroup(s, groupId))
  {
    var g :| g in s.groups && g.id == groupId && HasMember(g.users, s.currentUser.value.id);
    var i :| 0 <= i < |s.groups| && s.groups[i] == g;
    var m := GroupWithId(s.groups, groupId);
    assert m == Some(i);
  }
}

=== FILE: model.dfy ===
/**
 * The data model of the expense tracker: users, groups, daily expenses and the
 * session state the interface mutates, with the searches the handlers share and
 * the well-formedness invariant the handlers keep.
 */
module Model {

  datatype Option<T> = None | Some(value: T)

  datatype Role = Admin | Member

  datatype User = User(id: string, name: string, email: string, role: Role, joinedAt: string)

  datatype Expense = Expense(
    id: string,
    userId: string,
    amount: real,
    description: string,
    category: string,
    date: string,
    createdAt: string)

  datatype Group = Group(
    id: string,
    name: string,
    description: string,
    adminId: string,
    accessCode: string,
    users: seq<User>,
    dailyExpenses: seq<Expense>,
    createdAt: string)

  /** The session snapshot: all groups, the signed-in user and a copy of the active group. */
  datatype State = State(groups: seq<Group>, currentUser: Option<User>, currentGroup: Option<Group>)

  /** Why a handler returned early. `Incomplete` is the silent return on a missing
      field or session; the others are the cases the interface reports to the user. */
  datatype Rejection = Incomplete | MissingAccessCode | InvalidAccessCode | DuplicateEmail | UserNotFound

  /** What a handler leaves behind: the next state, and the reason when it returned early. */
  datatype Reply = Reply(state: State, rejected: Option<Rejection>)

  function Accept(s: State): Reply {
    Reply(s, None)
  }

  function Reject(s: State, why: Rejection): Reply {
    Reply(s, Some(why))
  }

  /** The empty snapshot a fresh installation starts from. */
  const Init := State([], None, None)

  // ---------------------------------------------------------------------------
  // Searches (Array.prototype.find / findIndex / some)
  // ---------------------------------------------------------------------------

  /** Index of the first element satisfying `p`, if any. */
  function FirstIndex<T>(s: seq<T>, p: T -> bool): (r: Option<nat>)
    ensures r.Some? ==> r.value < |s| && p(s[r.value])
    ensures r.Some? ==> forall j :: 0 <= j < r.value ==> !p(s[j])
    ensures r.None? <==> forall j :: 0 <= j < |s| ==> !p(s[j])
  {
    if |s| == 0 then None
    else if p(s[0]) then Some(0)
    else match FirstIndex(s[1..], p)
      case None => None
      case Some(k) => Some(k + 1)
  }

  /** The first index is the least index satisfying `p`, so any least index is it. */
  lemma FirstIndexIsLeast<T>(s: seq<T>, p: T -> bool)
    ensures forall k :: 0 <= k < |s| && p(s[k]) && (forall j :: 0 <= j < k ==> !p(s[j])) ==>
      FirstIndex(s, p) == Some(k)
  {
    forall k | 0 <= k < |s| && p(s[k]) && (forall j :: 0 <= j < k ==> !p(s[j]))
      ensures FirstIndex(s, p) == Some(k)
    {
      assert FirstIndex(s, p).Some?;
    }
  }

  predicate HasMember(users: seq<User>, id: string) {
    exists u :: u in users && u.id == id
  }

  predicate EmailTaken(users: seq<User>, email: string) {
    exists u :: u in users && u.email == email
  }

  /** The first member with the given id (`users.find(u => u.id === id)`). */
  function UserIndex(users: seq<User>, id: string): (r: Option<nat>)
    ensures r.Some? ==> r.value < |users| && users[r.value].id == id
    ensures r.Some? ==> forall j :: 0 <= j < r.value ==> users[j].id != id
    ensures r.None? <==> !HasMember(users, id)
  {
    var r := FirstIndex(users, (u: User) => u.id == id);
    assert r.None? ==> forall u :: u in users ==> u.id != id by {
      if r.None? {
        forall u | u in users ensures u.id != id {
          var j :| 0 <= j < |users| && users[j] == u;
        }
      }
    }
    r
  }

  /** The first group whose stored code equals `code` exactly. */
  function GroupWithCode(groups: seq<Group>, code: string): (r: Option<nat>)
    ensures r.Some? ==> r.value < |groups| && groups[r.value].accessCode == code
    ensures r.Some? ==> forall j :: 0 <= j < r.value ==> groups[j].accessCode != code
    ensures r.None? <==> forall j :: 0 <= j < |groups| ==> groups[j].accessCode != code
  {
    FirstIndex(groups, (g: Group) => g.accessCode == code)
  }

  /** The first group with the given id. */
  function GroupWithId(groups: seq<Group>, id: string): (r: Option<nat>)
    ensures r.Some? ==> r.value < |groups| && groups[r.value].id == id
    ensures r.Some? ==> forall j :: 0 <= j < r.value ==> groups[j].id != id
    ensures r.None? <==> forall j :: 0 <= j < |groups| ==> groups[j].id != id
  {
    FirstIndex(groups, (g: Group) => g.id == id)
  }

  /** The first group one of whose members has the given user id. */
  function GroupWithMember(groups: seq<Group>, userId: string): (r: Option<nat>)
    ensures r.Some? ==> r.value < |groups| && HasMember(groups[r.value].users, userId)
    ensures r.Some? ==> forall j :: 0 <= j < r.value ==> !HasMember(groups[j].users, userId)
    ensures r.None? <==> forall j :: 0 <= j < |groups| ==> !HasMember(groups[j].users, userId)
  {
    FirstIndex(groups, (g: Group) => HasMember(g.users, userId))
  }

  /** Every group's members, group after group (`groups.flatMap(g => g.users)`). */
  function AllUsers(groups: seq<Group>): (r: seq<User>)
    ensures forall u :: u in r <==> exists g :: g in groups && u in g.users
  {
    if groups == [] then [] else groups[0].users + AllUsers(groups[1..])
  }

  /** Flattening distributes over concatenation: the members come group after group. */
  lemma {:induction false} AllUsersAppend(a: seq<Group>, b: seq<Group>)
    ensures AllUsers(a + b) == AllUsers(a) + AllUsers(b)
  {
    if a == [] {
      assert a + b == b;
    } else {
      assert (a + b)[1..] == a[1..] + b;
      AllUsersAppend(a[1..], b);
    }
  }

  /** A single group flattens to its own member list. */
  lemma AllUsersOne(g: Group)
    ensures AllUsers([g]) == g.users
  {
    assert [g][1..] == [];
  }

  /** `groups.map(g => g.id === id ? replacement : g)`: every group with that id is replaced. */
  function ReplaceById(groups: seq<Group>, id: string, replacement: Group): (r: seq<Group>)
    ensures |r| == |groups|
    ensures forall i :: 0 <= i < |groups| && groups[i].id == id ==> r[i] == replacement
    ensures forall i :: 0 <= i < |groups| && groups[i].id != id ==> r[i] == groups[i]
  {
    seq(|groups|, i requires 0 <= i < |groups| => if groups[i].id == id then replacement else groups[i])
  }

  // ---------------------------------------------------------------------------
  // Well-formedness
  // ---------------------------------------------------------------------------

  predicate UniqueGroupIds(groups: seq<Group>) {
    forall i, j :: 0 <= i < j < |groups| ==> groups[i].id != groups[j].id
  }

  /** The group's `adminId` names one of its members, and that member is an admin. */
  predicate AdminIsMember(g: Group) {
    exists u :: u in g.users && u.id == g.adminId && u.role == Admin
  }

  predicate UniqueEmails(users: seq<User>) {
    forall i, j :: 0 <= i < j < |users| ==> users[i].email != users[j].email
  }

  predicate UniqueUserIds(users: seq<User>) {
    forall i, j :: 0 <= i < j < |users| ==> users[i].id != users[j].id
  }

  /** Every expense is attributed to a member of its group. */
  predicate ExpensesOwned(g: Group) {
    forall e :: e in g.dailyExpenses ==> HasMember(g.users, e.userId)
  }

  predicate GroupWf(g: Group) {
    && AdminIsMember(g)
    && UniqueEmails(g.users)
    && UniqueUserIds(g.users)
    && ExpensesOwned(g)
  }

  /** The active group is a copy of an entry of `groups`. */
  predicate Synced(s: State) {
    s.currentGroup.Some? ==> s.currentGroup.value in s.groups
  }

  /** When both are set, the signed-in user is a member of the active group. */
  predicate SessionMember(s: State) {
    s.currentUser.Some? && s.currentGroup.Some? ==>
      HasMember(s.currentGroup.value.users, s.currentUser.value.id)
  }

  predicate Wf(s: State) {
    && UniqueGroupIds(s.groups)
    && (forall g :: g in s.groups ==> GroupWf(g))
    && Synced(s)
    && SessionMember(s)
  }

  /** Ids already used by any user of any group. */
  predicate UserIdUsed(groups: seq<Group>, id: string) {
    exists g :: g in groups && HasMember(g.users, id)
  }

  predicate GroupIdUsed(groups: seq<Group>, id: string) {
    exists g :: g in groups && g.id == id
  }

  /** With unique ids, the active group is the only entry carrying its id,
      so replacing by that id leaves the list unchanged. */
  lemma ReplaceSelf(groups: seq<Group>, g: Group)
    requires UniqueGroupIds(groups) && g in groups
    ensures ReplaceById(groups, g.id, g) == groups
  {
    var k :| 0 <= k < |groups| && groups[k] == g;
    var r := ReplaceById(groups, g.id, g);
    forall i | 0 <= i < |groups|
      ensures r[i] == groups[i]
    {
      if groups[i].id == g.id {
        assert i == k;
      }
    }
  }

  /** Replacing the entry with a given id keeps a group that was there findable:
      the replacement lands at the old entry's index. */
  lemma ReplaceLands(groups: seq<Group>, g: Group, replacement: Group)
    requires g in groups
    ensures replacement in ReplaceById(groups, g.id, replacement)
  {
    var k :| 0 <= k < |groups| && groups[k] == g;
    assert ReplaceById(groups, g.id, replacement)[k] == replacement;
  }
}

=== FILE: session.dfy ===
/**
 * The session as a whole: every user action dispatched to its handler, the
 * well-formedness invariant kept along any run of actions from the empty
 * snapshot, and how ledger changes show up in the settlement.
 */
module Session {
  import opened Model
  import opened Membership
  import opened Ledger
  import opened Settlement

  /** One user action, carrying the fresh ids, access code and timestamp it needs. */
  datatype Action =
    | Authenticate(mode: AuthMode, form: AuthForm, newId: string, now: string)
    | NewGroup(groupForm: GroupForm, groupId: string, code: string, createdAt: string)
    | SignOut
    | Choose(chosenId: string)
    | Spend(expenseForm: ExpenseForm, amount: real, expenseId: string, at: string)
    | Remove(removedId: string)

  function Apply(s: State, a: Action): (r: Reply)
    ensures r.rejected.Some? ==> r.state == s
  {
    match a
    case Authenticate(mode, form, newId, now) => Auth(s, mode, form, newId, now)
    case NewGroup(form, groupId, code, createdAt) => CreateGroup(s, form, groupId, code, createdAt)
    case SignOut => Accept(Logout(s))
    case Choose(groupId) => Accept(SelectGroup(s, groupId))
    case Spend(form, amount, expenseId, at) => AddExpense(s, form, amount, expenseId, at)
    case Remove(expenseId) => DeleteExpense(s, expenseId)
  }

  /** What the environment guarantees about an action: generated user and group
      ids are fresh, and only groups the user belongs to are offered for choosing. */
  predicate Admissible(s: State, a: Action) {
    match a
    case Authenticate(_, _, newId, _) => !UserIdUsed(s.groups, newId)
    case NewGroup(_, groupId, _, _) => !GroupIdUsed(s.groups, groupId)
    case Choose(groupId) => Selectable(s, groupId)
    case _ => true
  }

  lemma ApplyPreservesWf(s: State, a: Action)
    requires Wf(s) && Admissible(s, a)
    ensures Wf(Apply(s, a).state)
  {
    match a
    case Authenticate(mode, form, newId, now) => AuthPreservesWf(s, mode, form, newId, now);
    case NewGroup(form, groupId, code, createdAt) => CreateGroupPreservesWf(s, form, groupId, code, createdAt);
    case SignOut => LogoutPreservesWf(s);
    case Choose(groupId) => SelectGroupPreservesWf(s, groupId);
    case Spend(form, amount, expenseId, at) => AddExpensePreservesWf(s, form, amount, expenseId, at);
    case Remove(expenseId) => DeleteExpensePreservesWf(s, expenseId);
  }

  /** The state after a sequence of actions; a rejected action leaves the state as it was. */
  function Run(s: State, actions: seq<Action>): State
    decreases |actions|
  {
    if actions == [] then s else Run(Apply(s, actions[0]).state, actions[1..])
  }

  predicate AdmissibleRun(s: State, actions: seq<Action>)
    decreases |actions|
  {
    actions == [] || (Admissible(s, actions[0]) && AdmissibleRun(Apply(s, actions[0]).state, actions[1..]))
  }

  /** Every admissible run keeps the session well-formed; in particular the active
      group always equals an entry of `groups`, group ids stay unique, every group
      keeps an admin member and unique e-mails, and every expense has an owner. */
  lemma {:induction false} RunPreservesWf(s: State, actions: seq<Action>)
    requires Wf(s) && AdmissibleRun(s, actions)
    ensures Wf(Run(s, actions))
    decreases |actions|
  {
    if actions != [] {
      ApplyPreservesWf(s, actions[0]);
      RunPreservesWf(Apply(s, actions[0]).state, actions[1..]);
    }
  }

  /** In any state reached from the empty snapshot, the settlement of the active
      group accounts for every expense: `spent` summed over its keys is
      `totalSpent`, and each id-bucketed row is within n/20 of the average minus
      that member's own spend. */
  lemma ReachedSettlementAccounts(actions: seq<Action>, ls: seq<string>, i: nat)
    requires AdmissibleRun(Init, actions)
    requires var s := Run(Init, actions); s.currentGroup.Some? && i < |s.currentGroup.value.users|
    requires Distinct(ls) && forall l :: l in ls <==> l in Settle(Run(Init, actions).currentGroup).spent
    ensures var g := Run(Init, actions).currentGroup.value;
      var r := Settle(Some(g));
      var fixed := SettleByMember(Some(g));
      var n := |g.users| as real;
      var share := fixed.stats.value.averagePerPerson.value - SpentAt(fixed.spent, g.users[i].id);
      && SumAt(r.spent, ls) == r.stats.value.totalSpent
      && share - n * 0.05 <= Sum(fixed.matrix[i]) <= share + n * 0.05
  {
    RunPreservesWf(Init, actions);
    var s := Run(Init, actions);
    var g := s.currentGroup.value;
    assert GroupWf(g);
    SpentAccounting(ByName, g, ls);
    WellFormedRowSum(g, i);
  }

  /** A concrete admissible run from the empty snapshot: the first sign-up makes
      an admin, who creates a group and records an expense in it, so every lemma
      about reached states covers states with an active group and a ledger. */
  lemma FirstGroupRun()
    ensures var acts := [Authenticate(SignUpMode, AuthForm("Ann", "ann@x", ""), "u1", "t0"),
                         NewGroup(GroupForm("Flat", ""), "g1", "CODE1", "t1"),
                         Spend(ExpenseForm("5", "bread", "food", "d"), 5.0, "e1", "t2")];
      var s := Run(Init, acts);
      && AdmissibleRun(Init, acts)
      && s.currentUser == Some(User("u1", "Ann", "ann@x", Admin, "t0"))
      && s.currentGroup.Some?
      && s.currentGroup.value.users == [User("u1", "Ann", "ann@x", Admin, "t0")]
      && s.currentGroup.value.dailyExpenses == [Expense("e1", "u1", 5.0, "bread", "food", "d", "t2")]
      && s.groups == [s.currentGroup.value]
  {
    var a0 := Authenticate(SignUpMode, AuthForm("Ann", "ann@x", ""), "u1", "t0");
    var a1 := NewGroup(GroupForm("Flat", ""), "g1", "CODE1", "t1");
    var a2 := Spend(ExpenseForm("5", "bread", "food", "d"), 5.0, "e1", "t2");
    var acts := [a0, a1, a2];
    var ann := User("u1", "Ann", "ann@x", Admin, "t0");
    var g := Group("g1", "Flat", "", "u1", "CODE1", [ann], [], "t1");
    var e := Expense("e1", "u1", 5.0, "bread", "food", "d", "t2");
    var g' := g.(dailyExpenses := [e]);
    var s1 := State([], Some(ann), None);
    var s2 := State([g], Some(ann), Some(g));
    var s3 := State([g'], Some(ann), Some(g'));
    assert Apply(Init, a0).state == s1;
    assert Apply(s1, a1).state == s2 by {
      assert [] + [g] == [g];
    }
    assert Apply(s2, a2).state == s3 by {
      assert g.dailyExpenses + [e] == [e];
      assert ReplaceById([g], "g1", g') == [g'];
    }
    assert acts[1..] == [a1, a2] && [a1, a2][1..] == [a2] && [a2][1..] == [];
    assert Run(s2, [a2]) == s3;
    assert Run(s1, [a1, a2]) == s3;
    assert AdmissibleRun(s1, [a1, a2]);
  }

  /** Adding an expense raises `totalSpent` by its amount and raises exactly the
      bucket of the first member carrying the signed-in user's id. */
  lemma AddExpenseCredits(s: State, form: ExpenseForm, amount: real, newId: string, now: string)
    requires AddExpense(s, form, amount, newId, now).rejected.None?
    ensures var g := s.currentGroup.value;
      var before := Settle(Some(g));
      var after := Settle(AddExpense(s, form, amount, newId, now).state.currentGroup);
      var e := Expense(newId, s.currentUser.value.id, amount, form.description, form.category, form.date, now);
      && after.stats.value.totalSpent == before.stats.value.totalSpent + amount
      && (forall l :: SpentAt(after.spent, l) == SpentAt(before.spent, l) + Credit(ByName, g.users, e, l))
      && (forall j :: (0 <= j < |g.users| && g.users[j].id == s.currentUser.value.id
                       && forall j' :: 0 <= j' < j ==> g.users[j'].id != s.currentUser.value.id)
            ==> SpentAt(after.spent, g.users[j].name) == SpentAt(before.spent, g.users[j].name) + amount)
  {
    var g := s.currentGroup.value;
    var e := Expense(newId, s.currentUser.value.id, amount, form.description, form.category, form.date, now);
    var es := g.dailyExpenses;
    assert AddExpense(s, form, amount, newId, now).state.currentGroup == Some(g.(dailyExpenses := es + [e]));
    assert (es + [e])[..|es|] == es;
    forall l ensures SpentAt(SpentBy(ByName, g.users, es + [e]), l) ==
                     SpentAt(SpentBy(ByName, g.users, es), l) + Credit(ByName, g.users, e, l)
    {
      if l !in Labels(ByName, g.users) {
        match UserIndex(g.users, e.userId) {
          case Some(i) => assert Labels(ByName, g.users)[i] == g.users[i].name;
          case None =>
        }
      }
    }
  }

  /** Adding an expense with an id new to the active group and then deleting that
      id leaves the settlement, matrix and statistics, exactly as before. */
  lemma AddThenDeleteSettlement(s: State, form: ExpenseForm, amount: real, newId: string, now: string)
    requires Wf(s)
    requires AddExpense(s, form, amount, newId, now).rejected.None?
    requires forall e :: e in s.currentGroup.value.dailyExpenses ==> e.id != newId
    ensures var back := DeleteExpense(AddExpense(s, form, amount, newId, now).state, newId).state;
      Settle(back.currentGroup) == Settle(s.currentGroup)
  {
    AddThenDeleteRestores(s, form, amount, newId, now);
  }
}

=== FILE: settlement.dfy ===
/**
 * The weekly settlement: per-member spend, the pairwise equalisation matrix and
 * the summary statistics, computed from the active group alone.
 *
 * Amounts are exact reals. The matrix cell for row member i and column member j
 * is spent(j)/n - spent(i)/n, rounded to one decimal the way `Math.round(x * 10) / 10`
 * does: to the nearest tenth, ties toward +infinity.
 *
 * Spend is bucketed by a label of the member. The interface buckets by member NAME
 * (`ByName`, the behaviour as written); `ById` buckets by member id, the
 * evidently intended behaviour, which differs only when two members share a name.
 */
module Settlement {
  import opened Model

  datatype Keying = ByName | ById

  datatype Stats = Stats(totalSpent: real, averagePerPerson: Option<real>)

  /** `stats` is None without an active group; `averagePerPerson` is None when
      the group has no members (the interface divides by zero there). */
  datatype Settlement = Settlement(matrix: seq<seq<real>>, spent: map<string, real>, stats: Option<Stats>)

  function Label(k: Keying, u: User): string {
    match k
    case ByName => u.name
    case ById => u.id
  }

  /** The members' labels, in member order. */
  function Labels(k: Keying, users: seq<User>): (r: seq<string>)
    ensures |r| == |users|
  {
    seq(|users|, i requires 0 <= i < |users| => Label(k, users[i]))
  }

  predicate Distinct(ls: seq<string>) {
    forall i, j :: 0 <= i < j < |ls| ==> ls[i] != ls[j]
  }

  /** The bucket an expense is credited to: the label of the first member whose id
      is the expense's user id; no bucket when no member has that id. */
  function Owner(k: Keying, users: seq<User>, e: Expense): Option<string> {
    match UserIndex(users, e.userId)
    case Some(i) => Some(Label(k, users[i]))
    case None => None
  }

  /** What one expense adds to bucket `l`. */
  function Credit(k: Keying, users: seq<User>, e: Expense, l: string): real {
    if Owner(k, users, e) == Some(l) then e.amount else 0.0
  }

  /** Sum of the amounts of all expenses, in list order. */
  function Total(es: seq<Expense>): real {
    if es == [] then 0.0 else Total(es[..|es|-1]) + es[|es|-1].amount
  }

  /** Sum of the amounts credited to bucket `l`. */
  function Bucket(k: Keying, users: seq<User>, es: seq<Expense>, l: string): real {
    if es == [] then 0.0 else Bucket(k, users, es[..|es|-1], l) + Credit(k, users, es[|es|-1], l)
  }

  /** Sum of the amounts of the expenses attributed to some member. */
  function Attributed(users: seq<User>, es: seq<Expense>): real {
    if es == [] then 0.0
    else Attributed(users, es[..|es|-1]) + (if HasMember(users, es[|es|-1].userId) then es[|es|-1].amount else 0.0)
  }

  /** The `spent` record: one entry per member label, holding that bucket's sum. */
  function SpentBy(k: Keying, users: seq<User>, es: seq<Expense>): map<string, real> {
    map l | l in Labels(k, users) :: Bucket(k, users, es, l)
  }

  /** `spent[l] || 0`. */
  function SpentAt(spent: map<string, real>, l: string): real {
    if l in spent then spent[l] else 0.0
  }

  /** The unrounded matrix cell: what `row` owes `col` to even out their spend. */
  function Cell(spent: map<string, real>, n: real, row: string, col: string): real
    requires n != 0.0
  {
    SpentAt(spent, col) / n - SpentAt(spent, row) / n
  }

  /** `Math.round(x * 10) / 10`: a whole number of tenths, at most half a tenth
      from `x`, with ties going up. */
  function Round(x: real): (r: real)
    ensures (10.0 * r).Floor as real == 10.0 * r
    ensures x - 0.05 < r <= x + 0.05
  {
    var a := (10.0 * x + 0.5).Floor;
    assert a as real <= 10.0 * x + 0.5 < a as real + 1.0;
    a as real / 10.0
  }

  function CellsRow(spent: map<string, real>, n: real, row: string, cols: seq<string>): (r: seq<real>)
    requires n != 0.0
    ensures |r| == |cols|
  {
    seq(|cols|, j requires 0 <= j < |cols| => Cell(spent, n, row, cols[j]))
  }

  function RoundAll(xs: seq<real>): (r: seq<real>)
    ensures |r| == |xs|
  {
    seq(|xs|, j requires 0 <= j < |xs| => Round(xs[j]))
  }

  /** The rounded matrix over the given member labels. */
  function MatrixOf(spent: map<string, real>, labels: seq<string>): (m: seq<seq<real>>)
    ensures |m| == |labels|
  {
    seq(|labels|, i requires 0 <= i < |labels| => RoundAll(CellsRow(spent, |labels| as real, labels[i], labels)))
  }

  /** The settlement of the active group under the given bucketing. Without an
      active group it is empty. Otherwise the matrix is square, one row and one
      column per member, with zeros on the diagonal. */
  function SettleWith(k: Keying, current: Option<Group>): (r: Settlement)
    ensures current.None? ==> r.matrix == [] && r.spent == map[] && r.stats.None?
    ensures current.Some? ==>
      var n := |current.value.users|;
      && |r.matrix| == n
      && (forall i :: 0 <= i < n ==> |r.matrix[i]| == n && r.matrix[i][i] == 0.0)
      && r.stats.Some?
  {
    match current
    case None => Settlement([], map[], None)
    case Some(g) =>
      var n := |g.users|;
      var spent := SpentBy(k, g.users, g.dailyExpenses);
      var total := Total(g.dailyExpenses);
      var m := MatrixOf(spent, Labels(k, g.users));
      assert forall i :: 0 <= i < n ==> m[i][i] == Round(0.0);
      Settlement(m, spent, Some(Stats(total, if n == 0 then None else Some(total / n as real))))
  }

  /** The settlement exactly as the interface computes it: spend bucketed by name. */
  function Settle(current: Option<Group>): Settlement {
    SettleWith(ByName, current)
  }

  /** The settlement with spend bucketed by member id. */
  function SettleByMember(current: Option<Group>): Settlement {
    SettleWith(ById, current)
  }

  /** The `spent` computation written as the interface writes it: every member's
      name starts at zero, then each expense adds its amount to the name of the
      first member whose id it carries. It yields the name-bucketed record. */
  method ComputeSpent(users: seq<User>, expenses: seq<Expense>) returns (spent: map<string, real>)
    ensures forall l :: l in spent <==> l in Labels(ByName, users)
    ensures forall l :: l in spent ==> spent[l] == Bucket(ByName, users, expenses, l)
    ensures spent == SpentBy(ByName, users, expenses)
  {
    var names := Labels(ByName, users);
    spent := map[];
    for i := 0 to |users|
      invariant forall l :: l in spent <==> l in names[..i]
      invariant forall l :: l in spent ==> spent[l] == 0.0
    {
      assert names[..i + 1] == names[..i] + [users[i].name];
      spent := spent[users[i].name := 0.0];
    }
    assert names[..|users|] == names;
    for k := 0 to |expenses|
      invariant forall l :: l in spent <==> l in names
      invariant forall l :: l in spent ==> spent[l] == Bucket(ByName, users, expenses[..k], l)
    {
      var e := expenses[k];
      assert expenses[..k + 1][..k] == expenses[..k];
      assert expenses[..k + 1][k] == e;
      match UserIndex(users, e.userId) {
        case Some(i) =>
          var name := users[i].name;
          assert names[i] == name;
          assert forall l :: Credit(ByName, users, e, l) == (if l == name then e.amount else 0.0);
          spent := spent[name := spent[name] + e.amount];
        case None =>
          assert forall l :: Credit(ByName, users, e, l) == 0.0;
      }
    }
    assert expenses[..|expenses|] == expenses;
  }

  // ---------------------------------------------------------------------------
  // Rounding
  // ---------------------------------------------------------------------------

  /** Rounding a value and its negation gives results summing to exactly 0 or to
      one tenth; the tenth appears at ties, which round up on both sides. */
  lemma RoundPair(x: real)
    ensures Round(x) + Round(-x) == 0.0 || Round(x) + Round(-x) == 0.1
  {
    var a := (10.0 * x + 0.5).Floor;
    var b := (10.0 * -x + 0.5).Floor;
    assert a as real <= 10.0 * x + 0.5 < a as real + 1.0;
    assert b as real <= 10.0 * -x + 0.5 < b as real + 1.0;
    assert a + b == 0 || a + b == 1;
  }

  // ---------------------------------------------------------------------------
  // Matrix properties
  // ---------------------------------------------------------------------------

  /** Before rounding, cell (i, j) is the negation of cell (j, i); after rounding
      the two cells sum to 0 or to 0.1, so they cancel up to one tenth. */
  lemma NearlyAntisymmetric(k: Keying, g: Group, i: nat, j: nat)
    requires i < |g.users| && j < |g.users|
    ensures var r := SettleWith(k, Some(g));
      var n := |g.users| as real;
      var ls := Labels(k, g.users);
      && Cell(r.spent, n, ls[i], ls[j]) == -Cell(r.spent, n, ls[j], ls[i])
      && r.matrix[i][j] == Round(Cell(r.spent, n, ls[i], ls[j]))
      && 0.0 <= r.matrix[i][j] + r.matrix[j][i] <= 0.1
  {
    var r := SettleWith(k, Some(g));
    var n := |g.users| as real;
    var ls := Labels(k, g.users);
    RoundPair(Cell(r.spent, n, ls[i], ls[j]));
  }

  /** When every member's bucket holds the same amount, every entry is zero. */
  lemma EqualSpendSettlesToZero(k: Keying, g: Group)
    requires var r := SettleWith(k, Some(g));
      forall i, j :: 0 <= i < |g.users| && 0 <= j < |g.users| ==>
        SpentAt(r.spent, Label(k, g.users[i])) == SpentAt(r.spent, Label(k, g.users[j]))
    ensures var m := SettleWith(k, Some(g)).matrix;
      forall i, j :: 0 <= i < |g.users| && 0 <= j < |g.users| ==> m[i][j] == 0.0
  {
    var r := SettleWith(k, Some(g));
    var ls := Labels(k, g.users);
    forall i, j | 0 <= i < |g.users| && 0 <= j < |g.users|
      ensures r.matrix[i][j] == 0.0
    {
      assert SpentAt(r.spent, ls[i]) == SpentAt(r.spent, ls[j]);
      assert r.matrix[i][j] == Round(0.0);
    }
  }

  // ---------------------------------------------------------------------------
  // Sums
  // ---------------------------------------------------------------------------

  function Sum(xs: seq<real>): real {
    if xs == [] then 0.0 else Sum(xs[..|xs|-1]) + xs[|xs|-1]
  }

  /** Sum of `spent[l] || 0` over a list of labels. */
  function SumAt(spent: map<string, real>, ls: seq<string>): real {
    if ls == [] then 0.0 else SumAt(spent, ls[..|ls|-1]) + SpentAt(spent, ls[|ls|-1])
  }

  /** Sum of the buckets of a list of labels. */
  function SumBuckets(k: Keying, users: seq<User>, es: seq<Expense>, ls: seq<string>): real {
    if ls == [] then 0.0 else SumBuckets(k, users, es, ls[..|ls|-1]) + Bucket(k, users, es, ls[|ls|-1])
  }

  /** Sum over a list of labels of what one expense credits to each. */
  function SumCredits(k: Keying, users: seq<User>, e: Expense, ls: seq<string>): real {
    if ls == [] then 0.0 else SumCredits(k, users, e, ls[..|ls|-1]) + Credit(k, users, e, ls[|ls|-1])
  }

  /** Sum of the amounts of the expenses whose bucket is one of `ls`. */
  function Covered(k: Keying, users: seq<User>, es: seq<Expense>, ls: seq<string>): real {
    if es == [] then 0.0
    else
      var e := es[|es|-1];
      Covered(k, users, es[..|es|-1], ls) + (if Owner(k, users, e).Some? && Owner(k, users, e).value in ls then e.amount else 0.0)
  }

  /** A row of unrounded cells sums to the column buckets' total over n, minus
      one share of the row's own bucket per column. */
  lemma {:induction false} RowSumCells(spent: map<string, real>, n: real, row: string, cols: seq<string>)
    requires n != 0.0
    ensures Sum(CellsRow(spent, n, row, cols)) == SumAt(spent, cols) / n - (|cols| as real) * (SpentAt(spent, row) / n)
  {
    if cols != [] {
      var pre := cols[..|cols|-1];
      var x := SpentAt(spent, cols[|cols|-1]);
      var d := SpentAt(spent, row) / n;
      var m := |pre| as real;
      CellsRowSnoc(spent, n, row, cols);
      RowSumCells(spent, n, row, pre);
      DivAdd(SumAt(spent, pre), x, n);
      SnocArith(SumAt(spent, pre) / n, x / n, m, d);
    }
  }

  /** The last cell of a row comes after the cells of the shorter row. */
  lemma CellsRowSnoc(spent: map<string, real>, n: real, row: string, cols: seq<string>)
    requires n != 0.0 && cols != []
    ensures Sum(CellsRow(spent, n, row, cols)) ==
      Sum(CellsRow(spent, n, row, cols[..|cols|-1])) + (SpentAt(spent, cols[|cols|-1]) / n - SpentAt(spent, row) / n)
  {
    assert CellsRow(spent, n, row, cols)[..|cols|-1] == CellsRow(spent, n, row, cols[..|cols|-1]);
  }

  lemma SnocArith(a: real, x: real, m: real, d: real)
    ensures (a - m * d) + (x - d) == (a + x) - (m + 1.0) * d
  {
  }

  lemma DivAdd(a: real, b: real, n: real)
    requires n != 0.0
    ensures (a + b) / n == a / n + b / n
  {
  }

  /** Rounding each entry of a row moves the row's sum by at most a twentieth per entry. */
  lemma {:induction false} SumRoundedClose(xs: seq<real>)
    ensures Sum(xs) - (|xs| as real) * 0.05 <= Sum(RoundAll(xs)) <= Sum(xs) + (|xs| as real) * 0.05
  {
    if xs != [] {
      var pre := xs[..|xs|-1];
      assert RoundAll(xs)[..|xs|-1] == RoundAll(pre);
      SumRoundedClose(pre);
    }
  }

  /** An empty expense list gives every bucket zero. */
  lemma {:induction false} SumBucketsNoExpenses(k: Keying, users: seq<User>, ls: seq<string>)
    ensures SumBuckets(k, users, [], ls) == 0.0
  {
    if ls != [] {
      SumBucketsNoExpenses(k, users, ls[..|ls|-1]);
    }
  }

  /** One more expense adds to the buckets of `ls` what it credits to each. */
  lemma {:induction false} SumBucketsSnoc(k: Keying, users: seq<User>, es: seq<Expense>, e: Expense, ls: seq<string>)
    ensures SumBuckets(k, users, es + [e], ls) == SumBuckets(k, users, es, ls) + SumCredits(k, users, e, ls)
  {
    if ls != [] {
      assert (es + [e])[..|es|] == es;
      SumBucketsSnoc(k, users, es, e, ls[..|ls|-1]);
    }
  }

  /** Over distinct labels, an expense is credited once if its bucket is listed,
      and not at all otherwise. */
  lemma {:induction false} SumCreditsOnce(k: Keying, users: seq<User>, e: Expense, ls: seq<string>)
    requires Distinct(ls)
    ensures SumCredits(k, users, e, ls) ==
      (if Owner(k, users, e).Some? && Owner(k, users, e).value in ls then e.amount else 0.0)
  {
    if ls != [] {
      var pre := ls[..|ls|-1];
      var l := ls[|ls|-1];
      assert Distinct(pre);
      SumCreditsOnce(k, users, e, pre);
      assert l !in pre;
      assert forall x :: x in ls <==> x in pre || x == l;
    }
  }

  /** Over distinct labels, the buckets partition the covered expenses: summing the
      buckets counts every covered expense exactly once. */
  lemma {:induction false} BucketsPartition(k: Keying, users: seq<User>, es: seq<Expense>, ls: seq<string>)
    requires Distinct(ls)
    ensures SumBuckets(k, users, es, ls) == Covered(k, users, es, ls)
  {
    if es == [] {
      SumBucketsNoExpenses(k, users, ls);
    } else {
      var pre := es[..|es|-1];
      var e := es[|es|-1];
      assert pre + [e] == es;
      BucketsPartition(k, users, pre, ls);
      SumBucketsSnoc(k, users, pre, e, ls);
      SumCreditsOnce(k, users, e, ls);
    }
  }

  /** When every member label is listed, the covered expenses are exactly those
      attributed to some member. */
  lemma {:induction false} CoveredAttributed(k: Keying, users: seq<User>, es: seq<Expense>, ls: seq<string>)
    requires forall i :: 0 <= i < |users| ==> Label(k, users[i]) in ls
    ensures Covered(k, users, es, ls) == Attributed(users, es)
  {
    if es != [] {
      CoveredAttributed(k, users, es[..|es|-1], ls);
    }
  }

  /** With non-negative amounts, the attributed amounts never exceed the total. */
  lemma {:induction false} AttributedAtMostTotal(users: seq<User>, es: seq<Expense>)
    requires forall e :: e in es ==> e.amount >= 0.0
    ensures Attributed(users, es) <= Total(es)
  {
    if es != [] {
      assert forall e :: e in es[..|es|-1] ==> e in es;
      AttributedAtMostTotal(users, es[..|es|-1]);
    }
  }

  /** When every expense belongs to a member, the attributed amounts are the total. */
  lemma {:induction false} AttributedAllOwned(users: seq<User>, es: seq<Expense>)
    requires forall e :: e in es ==> HasMember(users, e.userId)
    ensures Attributed(users, es) == Total(es)
  {
    if es != [] {
      assert forall e :: e in es[..|es|-1] ==> e in es;
      AttributedAllOwned(users, es[..|es|-1]);
    }
  }

  /** Summing `spent` over labels that are all keys sums their buckets. */
  lemma {:induction false} SumAtBuckets(k: Keying, users: seq<User>, es: seq<Expense>, ls: seq<string>)
    requires forall l :: l in ls ==> l in Labels(k, users)
    ensures SumAt(SpentBy(k, users, es), ls) == SumBuckets(k, users, es, ls)
  {
    if ls != [] {
      assert forall l :: l in ls[..|ls|-1] ==> l in ls;
      SumAtBuckets(k, users, es, ls[..|ls|-1]);
      assert ls[|ls|-1] in ls;
    }
  }

  // ---------------------------------------------------------------------------
  // Statistics
  // ---------------------------------------------------------------------------

  /** The statistics, and what the buckets add up to. `totalSpent` is the sum of
      every expense, `averagePerPerson` is that over the member count. Summed over
      any duplicate-free listing of its keys, `spent` gives only the amounts of
      expenses attributed to a member: at most `totalSpent` when amounts are
      non-negative, and exactly `totalSpent` when every expense has an owner. */
  lemma SpentAccounting(k: Keying, g: Group, ls: seq<string>)
    requires Distinct(ls)
    requires forall l :: l in ls <==> l in SettleWith(k, Some(g)).spent
    ensures var r := SettleWith(k, Some(g));
      var n := |g.users|;
      && r.stats.value.totalSpent == Total(g.dailyExpenses)
      && (n > 0 ==> r.stats.value.averagePerPerson == Some(r.stats.value.totalSpent / n as real))
      && (n == 0 ==> r.stats.value.averagePerPerson.None? && r.matrix == [])
      && SumAt(r.spent, ls) == Attributed(g.users, g.dailyExpenses)
      && ((forall e :: e in g.dailyExpenses ==> e.amount >= 0.0) ==> SumAt(r.spent, ls) <= r.stats.value.totalSpent)
      && (ExpensesOwned(g) ==> SumAt(r.spent, ls) == r.stats.value.totalSpent)
  {
    var es := g.dailyExpenses;
    SumAtBuckets(k, g.users, es, ls);
    BucketsPartition(k, g.users, es, ls);
    forall i | 0 <= i < |g.users| ensures Label(k, g.users[i]) in ls {
      assert Labels(k, g.users)[i] == Label(k, g.users[i]);
    }
    CoveredAttributed(k, g.users, es, ls);
    if forall e :: e in es ==> e.amount >= 0.0 {
      AttributedAtMostTotal(g.users, es);
    }
    if ExpensesOwned(g) {
      AttributedAllOwned(g.users, es);
    }
  }

  /** The row property: when the member labels are distinct and every
      expense has an owner, row i of the unrounded matrix sums to the average minus
      member i's own spend, and the rounded row is within n/20 of that. */
  lemma RowSumMatchesShare(k: Keying, g: Group, i: nat)
    requires Distinct(Labels(k, g.users)) && ExpensesOwned(g)
    requires i < |g.users|
    ensures var r := SettleWith(k, Some(g));
      var n := |g.users| as real;
      var ls := Labels(k, g.users);
      var share := r.stats.value.averagePerPerson.value - SpentAt(r.spent, ls[i]);
      && Sum(CellsRow(r.spent, n, ls[i], ls)) == share
      && share - n * 0.05 <= Sum(r.matrix[i]) <= share + n * 0.05
  {
    var ls := Labels(k, g.users);
    SettleParts(k, g, i);
    SpentAccounting(k, g, ls);
    RowShare(SpentBy(k, g.users, g.dailyExpenses), ls, Total(g.dailyExpenses), i);
  }

  /** How the settlement of a group is assembled, entry by entry. */
  lemma SettleParts(k: Keying, g: Group, i: nat)
    requires i < |g.users|
    ensures var r := SettleWith(k, Some(g));
      var n := |g.users| as real;
      var ls := Labels(k, g.users);
      && r.spent == SpentBy(k, g.users, g.dailyExpenses)
      && r.stats == Some(Stats(Total(g.dailyExpenses), Some(Total(g.dailyExpenses) / n)))
      && r.matrix[i] == RoundAll(CellsRow(r.spent, n, ls[i], ls))
  {
  }

  /** The row property on a bare `spent` record whose entries over `ls` add up to `total`. */
  lemma RowShare(spent: map<string, real>, ls: seq<string>, total: real, i: nat)
    requires i < |ls| && SumAt(spent, ls) == total
    ensures var n := |ls| as real;
      var share := total / n - SpentAt(spent, ls[i]);
      && Sum(CellsRow(spent, n, ls[i], ls)) == share
      && share - n * 0.05 <= Sum(RoundAll(CellsRow(spent, n, ls[i], ls))) <= share + n * 0.05
  {
    var n := |ls| as real;
    var row := CellsRow(spent, n, ls[i], ls);
    UnroundedRowShare(spent, ls, i);
    SumRoundedClose(row);
  }

  lemma UnroundedRowShare(spent: map<string, real>, ls: seq<string>, i: nat)
    requires i < |ls|
    ensures var n := |ls| as real;
      Sum(CellsRow(spent, n, ls[i], ls)) == SumAt(spent, ls) / n - SpentAt(spent, ls[i])
  {
    FullRowSumCells(spent, ls, i);
    CancelShare(Sum(CellsRow(spent, |ls| as real, ls[i], ls)), SumAt(spent, ls), |ls| as real, SpentAt(spent, ls[i]));
  }

  lemma FullRowSumCells(spent: map<string, real>, ls: seq<string>, i: nat)
    requires i < |ls|
    ensures var n := |ls| as real;
      Sum(CellsRow(spent, n, ls[i], ls)) == SumAt(spent, ls) / n - n * (SpentAt(spent, ls[i]) / n)
  {
    RowSumCells(spent, |ls| as real, ls[i], ls);
  }

  lemma CancelShare(sum: real, a: real, n: real, own: real)
    requires n != 0.0 && sum == a / n - n * (own / n)
    ensures sum == a / n - own
  {
    MulDivCancel(n, own);
  }

  lemma MulDivCancel(n: real, x: real)
    requires n != 0.0
    ensures n * (x / n) == x
  {
  }

  /** In a well-formed group member ids are distinct, so the id-bucketed settlement
      has the row property with no further assumption. */
  lemma WellFormedRowSum(g: Group, i: nat)
    requires GroupWf(g) && i < |g.users|
    ensures var r := SettleByMember(Some(g));
      var n := |g.users| as real;
      var share := r.stats.value.averagePerPerson.value - SpentAt(r.spent, g.users[i].id);
      share - n * 0.05 <= Sum(r.matrix[i]) <= share + n * 0.05
  {
    var ls := Labels(ById, g.users);
    forall a, b | 0 <= a < b < |ls| ensures ls[a] != ls[b] {
      assert ls[a] == g.users[a].id && ls[b] == g.users[b].id;
    }
    RowSumMatchesShare(ById, g, i);
  }

  /** Two members named Ali (ids 1 and 2) and Bob (id 3); member 1 spends 90.
      Bucketed by name, member 2 is credited member 1's 90, and Bob's row owes
      30 to each Ali, 60 in all, twice the 30 that would bring Bob to the average. */
  lemma SharedNameCounterexample()
    ensures var users := [User("1", "Ali", "ali1", Admin, ""), User("2", "Ali", "ali2", Member, ""),
                          User("3", "Bob", "bob", Member, "")];
      var g := Group("g", "G", "", "1", "CODE", users, [Expense("e", "1", 90.0, "", "", "", "")], "");
      var r := Settle(Some(g));
      var fixed := SettleByMember(Some(g));
      && r.stats.value.averagePerPerson == Some(30.0)
      && SpentAt(r.spent, "Bob") == 0.0
      && r.matrix[2] == [30.0, 30.0, 0.0]
      && Sum(r.matrix[2]) == 60.0
      && fixed.matrix[2] == [30.0, 0.0, 0.0]
      && Sum(fixed.matrix[2]) == 30.0
  {
    var users := [User("1", "Ali", "ali1", Admin, ""), User("2", "Ali", "ali2", Member, ""),
                  User("3", "Bob", "bob", Member, "")];
    var e := Expense("e", "1", 90.0, "", "", "", "");
    var g := Group("g", "G", "", "1", "CODE", users, [e], "");
    assert UserIndex(users, "1") == Some(0);
    assert [e][..0] == [];
    assert Bucket(ByName, users, [e], "Ali") == 90.0;
    assert Bucket(ByName, users, [e], "Bob") == 0.0;
    assert Bucket(ById, users, [e], "1") == 90.0;
    assert Bucket(ById, users, [e], "2") == 0.0;
    assert Bucket(ById, users, [e], "3") == 0.0;
    assert Round(30.0) == 30.0;
    assert Round(0.0) == 0.0;
    var r := Settle(Some(g));
    assert r.matrix[2] == [30.0, 30.0, 0.0];
    assert [30.0, 30.0, 0.0][..2] == [30.0, 30.0];
    assert [30.0, 30.0][..1] == [30.0];
    var fixed := SettleByMember(Some(g));
    assert fixed.matrix[2] == [30.0, 0.0, 0.0];
    assert [30.0, 0.0, 0.0][..2] == [30.0, 0.0];
    assert [30.0, 0.0][..1] == [30.0];
  }
}

=== FILE: text.dfy ===
/** Character-level text helpers used when access codes are compared. */
module Text {

  /** True of the ASCII lower-case letters, the only ones upper-casing changes here. */
  predicate IsLower(c: char) {
    'a' <= c <= 'z'
  }

  /** Upper-cases one ASCII letter and leaves every other character alone. */
  function UpperChar(c: char): (r: char)
    ensures !IsLower(r)
    ensures IsLower(c) ==> r as int + 32 == c as int
    ensures !IsLower(c) ==> r == c
  {
    if IsLower(c) then (c as int - 32) as char else c
  }

  /** Upper-cases a string character by character; the length never changes. */
  function Upper(s: string): (r: string)
    ensures |r| == |s|
    ensures forall i :: 0 <= i < |s| ==> r[i] == UpperChar(s[i])
  {
    if s == [] then [] else [UpperChar(s[0])] + Upper(s[1..])
  }

  /** Upper-casing twice is the same as upper-casing once. */
  lemma UpperIdempotent(s: string)
    ensures Upper(Upper(s)) == Upper(s)
  {
    var u := Upper(s);
    assert forall i :: 0 <= i < |u| ==> UpperChar(u[i]) == u[i];
  }

  /** An upper-cased string holds no lower-case letter, and is empty exactly when its input is. */
  lemma UpperHasNoLower(s: string)
    ensures forall i :: 0 <= i < |Upper(s)| ==> !IsLower(Upper(s)[i])
    ensures Upper(s) == [] <==> s == []
  {
  }
}
